=== FILE: README.md ===
# check_anagram, modelled in Dafny

`check_anagram` decides whether two strings are anagrams. It first
normalises both strings. Normalising lower-cases the string unless
`--keep-case` is given. It then deletes every character of a "strip class":
non-word characters unless `--keep-nonword` is given, and, in the C++
program, the characters listed with `--ignore-chars`. Finally it compares the
two normalised strings by sorting them. The repository holds the same
program in C++ and in Go (and a broken Python copy).

This project models the pure core of both programs:

- `Ascii`: ASCII case folding and the `\w`/`\W` classes.
- `Sorting`: the rune order of `SortableRunes.Less` and an insertion sort,
  proved to give the unique sorted permutation.
- `Anagram`: the C++ `CheckAnagrams`, proved equal to multiset equality.
- `Escape`: `RegexEscape`, its inverse, and a reader for the bracket
  expressions the program builds from its output.
- `StripClass`: the options record, the strip class as a character predicate
  (`InStripClass`), and `CreateStripRegex` as the regex source it builds,
  related to that predicate.
- `Normalize`: the C++ `StripInput`, characterised by an independent
  specification (`Normalized`).
- `Cli`: the validity check on the two positional strings and one whole run,
  with worked examples ("Dormitory"/"Dirty Room", "Listen"/"Silent" with
  `--keep-case`, "a.b,c"/"cba" with and without `--keep-nonword`).
- `GoVariant`: the Go program, proved to agree with the C++ core when the
  ignore set is empty.

Two behaviours of the code are worth stating up front:

- With `--keep-case`, "Listen" and "Silent" are not anagrams: the capitals
  'L' and 'S' survive normalisation, so the program answers "No."
  (`Cli.KeepCaseScenario`).
- The whole-run model (`Normalize.StripInput`, `Cli.Run`) strips the literal
  strip class `InStripClass`: every `--ignore-chars` character stands for
  itself, as the option's help text promises ("ignore all of the characters
  in the given string"). The program as written differs only for an unescaped '-' inside the bracket
  body, that is, one with an ignore character or `\W` before it and an ignore
  character after it. Such a '-' either forms a range, which strips
  characters that were not listed, or makes the regex constructor
  (check_anagram.cc:56) throw. The constructor throws on a reversed range such
  as `z-a`, on a '-' after `\W`, and on a second '-' after a range. Nothing
  catches that exception, so the program stops without an answer. A '-' at
  either end of the bracket body is a literal, and there the program and the
  model agree: `--keep-case --keep-nonword --ignore-chars a-` builds `[a-]`
  (`StripClass.TrailingDashIgnoreSetIsLiteral`), and `--keep-nonword
  --ignore-chars -a` builds `[-a]`. See Findings and "Left out".

## Model

| member | source | states |
|---|---|---|
| `Ascii.LowerChar` | check_anagram.cc:60-61 | one character is lower-cased: a capital becomes the lower-case letter 32 code points above it, every other character is unchanged, and word characters stay word characters |
| `Ascii.ToLower` | check_anagram.cc:60-61 | lower-casing keeps the length, leaves no capital letter, turns each capital into its own lower-case letter, and changes no character that was not a capital |
| `Ascii.ToLowerFixesNoUpper` | check_anagram.cc:60-61 | lower-casing a string without capitals leaves it unchanged |
| `Ascii.ToLowerIdempotent` | check_anagram.cc:60-61 | lower-casing twice is lower-casing once |
| `Sorting.LessIsStrictTotalOrder` | check_anagram.go:40-42 | `SortableRunes.Less` is irreflexive, asymmetric, transitive and total on distinct runes |
| `Sorting.Insert` | check_anagram.go:56-57 | inserting into a sorted sequence keeps it sorted and adds exactly the one element |
| `Sorting.Sort` | check_anagram.go:55-57 | sorting returns a permutation of its input (same multiset, same length) in which no later rune is `Less` than an earlier one |
| `Sorting.SortedUnique` | check_anagram.cc:70-73 | two sorted sequences with the same multiset of characters are equal, so comparing sorted copies compares multisets |
| `Sorting.SortDeterminedByMultiset` | check_anagram.cc:70-73 | the sorted copies of two strings are equal exactly when the strings have the same multiset of characters |
| `Anagram.CheckAnagrams` | check_anagram.cc:65-74 | the answer is false when the lengths differ, and true exactly when both strings hold the same characters with the same multiplicities |
| `Anagram.FastPathIsRedundant` | check_anagram.cc:66-68 | the early length test never changes the answer of the sort-and-compare |
| `Anagram.CheckAnagramsSymmetric` | check_anagram.cc:65-74 | the check gives the same answer with its arguments swapped |
| `Anagram.CheckAnagramsSwap` | check_anagram.cc:65-74 | a string is an anagram of the string with any two of its positions exchanged |
| `Anagram.CheckAnagramsRotate` | check_anagram.cc:65-74 | `x + y` is an anagram of `y + x` |
| `Anagram.CheckAnagramsSorted` | check_anagram.cc:70-73 | a string is an anagram of its own sorted copy |
| `Escape.EscapeUsing` | check_anagram.cc:37-43 | escaping lengthens the input by exactly the number of its positions that hold a member of the escape set |
| `Escape.EscapeAppend` | check_anagram.cc:37-43 | escaping works character by character: it distributes over concatenation |
| `Escape.EscapeIdentity` | check_anagram.cc:37-43 | a string without metacharacters is left unchanged |
| `Escape.UnescapeEscape` | check_anagram.cc:37-43 | dropping each backslash that precedes an escaped character recovers the input |
| `Escape.RegexEscape` | check_anagram.cc:37-43 | the result is longer than the input by the number of its fifteen metacharacters, unescaping it gives the input back, and an input without metacharacters is returned unchanged |
| `Escape.RegexEscapeFixed` | check_anagram.cc:37-43 | the corrected escape (the fifteen plus '-') lengthens by one per escaped character and is undone by unescaping |
| `Escape.LitsMember` | check_anagram.cc:52-54 | a bracket class of literal characters matches exactly the characters of the string they came from |
| `Escape.ParseEscaped` | check_anagram.cc:50-54 | under an escape set that protects the backslash, both brackets and '^', and either protects '-' or meets no '-', the escaped string reads back as one literal per input character |
| `Escape.ParseNonWordThenEscaped` | check_anagram.cc:47-54 | `\W` followed by such an escaped string reads as the non-word class plus those literals |
| `StripClass.EmptyStripClass` | check_anagram.cc:47-55 | the strip class is empty exactly when non-word characters are kept and the ignore set is empty |
| `StripClass.CreateStripRegex` | check_anagram.cc:45-57 | the built regex source is the empty pattern exactly when the strip class is empty |
| `StripClass.StripItemsMember` | check_anagram.cc:47-50 | the non-word class followed by one literal per ignored character matches exactly the strip class |
| `StripClass.CompileStripRegex` | check_anagram.cc:45-57 | for a bracket-safe escape set that escapes '-' or meets none, the built regex source reads as the non-word class (when non-word characters go) followed by one literal per ignored character |
| `StripClass.StripRegexUsing` | check_anagram.cc:46-55 | the built source is empty exactly when non-word characters are kept and nothing is ignored, and otherwise is enclosed in '[' and ']' |
| `StripClass.StripRegexDenotesStripClass` | check_anagram.cc:45-57 | for a bracket-safe escape set that either escapes '-' or meets no '-' in the ignore set, the bracket expression built from the options matches exactly the characters of the strip class |
| `StripClass.CreateStripRegexFaithfulWithoutDash` | check_anagram.cc:45-57 | as written, the strip regex matches exactly the strip class whenever the ignore set holds no '-' |
| `StripClass.CreateStripRegexFixed` | check_anagram.cc:45-57 | the corrected regex source is the empty pattern exactly when the strip class is empty |
| `StripClass.CreateStripRegexFixedFaithful` | check_anagram.cc:45-57 | with '-' escaped too, the strip regex matches exactly the strip class for every configuration |
| `StripClass.DashIgnoreSetBecomesRange` | check_anagram.cc:38-54 | as written, `--keep-case --keep-nonword --ignore-chars a-z` yields the class `[a-z]`, which deletes 'b' although 'b' is not in the ignore set |
| `StripClass.TrailingDashIgnoreSetIsLiteral` | check_anagram.cc:47-56 | as written, `--keep-case --keep-nonword --ignore-chars a-` yields `[a-]`, whose trailing '-' is a literal, so the regex deletes exactly the strip class ('a' and '-') |
| `StripClass.ReversedDashIgnoreSetIsRejected` | check_anagram.cc:38-56 | as written, `--keep-case --keep-nonword --ignore-chars z-a` yields the reversed range `[z-a]`, which the reader refuses (`None`) as the regex compiler does, although the strip class it stands for ('z', '-', 'a') is well defined |
| `Normalize.SubsequenceMultiset` | check_anagram.cc:62 | deleting characters never adds an occurrence of any character |
| `Normalize.FoldCase` | check_anagram.cc:60-61 | the folding step keeps the length, leaves no capital when case is not kept, and is the identity when it is |
| `Normalize.RemoveClass` | check_anagram.cc:62 | deleting the strip class keeps the order of what remains, leaves no strip-class character, and keeps every other character as often as it occurred |
| `Normalize.RemoveClassUnique` | check_anagram.cc:62 | only one string meets those three properties, so they specify the deletion completely |
| `Normalize.RemoveClassAppend` | check_anagram.cc:62 | deletion distributes over concatenation |
| `Normalize.RemoveClassKeepsClean` | check_anagram.cc:62 | a string with no strip-class character passes through unchanged |
| `Normalize.RemoveClassDropsStripped` | check_anagram.cc:62 | a string made only of strip-class characters disappears |
| `Normalize.RemoveClassCutsGap` | check_anagram.cc:62 | a run of strip-class characters is cut out and its two sides are normalised on their own |
| `Normalize.StripInput` | check_anagram.cc:59-63 | the normalised string meets the specification `Normalized`; it has no capitals unless case is kept; with case kept it is a subsequence of the raw input |
| `Normalize.StripInputCharacterized` | check_anagram.cc:59-63 | a string meets `Normalized` for an input exactly when it is that input's normal form |
| `Normalize.StripInputIdempotent` | check_anagram.cc:59-63 | normalising a normalised string changes nothing |
| `Normalize.StripInputOnlyFolds` | check_anagram.cc:52-62 | with non-word characters kept and no ignore set, normalising only case-folds |
| `Normalize.StripInputIgnoresCapitalsInIgnoreSet` | check_anagram.cc:49-61 | when case is folded, capitals in the ignore set have no effect: two ignore sets that agree on all other characters give the same result |
| `Cli.BindInputs` | check_anagram.cc:101-131 | more than two positionals fail with "too many inputs"; otherwise the inputs are accepted exactly when there are two and neither is empty, and every other case fails with "not enough inputs" |
| `Cli.Run` | check_anagram.cc:134-147 | a run succeeds exactly when the inputs are accepted, a rejected run fails with the message of the input check, and an accepted run answers whether the two normalised strings hold the same characters |
| `Cli.RunSymmetric` | check_anagram.cc:137-141 | swapping the two inputs does not change the outcome |
| `Cli.RunOnNormalizedInputs` | check_anagram.cc:137-141 | for two non-empty inputs whose normal forms are also non-empty, giving the program those normal forms as inputs gives the same outcome |
| `Cli.EmptyInputRejected` | check_anagram.cc:130-131 | an empty first input fails with "not enough inputs" whatever the second |
| `Cli.ThreeInputsRejected` | check_anagram.cc:120-121 | three positional inputs fail with "too many inputs" |
| `Cli.RunFromNormalForms` | check_anagram.cc:137-141 | with two non-empty inputs the answer depends only on the multisets of their normal forms |
| `Cli.DormitoryScenario` | check_anagram.cc:134-147 | with default options "Dormitory" and "Dirty Room" are anagrams |
| `Cli.KeepCaseScenario` | check_anagram.cc:134-147 | with `--keep-case` "Listen" and "Silent" are not anagrams |
| `Cli.PunctuationScenario` | check_anagram.cc:134-147 | "a.b,c" and "cba" are anagrams by default and not with `--keep-nonword` |
| `Cli.NormalFormAroundGap` | check_anagram.cc:59-63 | an input that folds to clean text, a strip-class run and clean text normalises to the two clean parts joined |
| `Cli.NormalFormAroundTwoGaps` | check_anagram.cc:59-63 | the same with two strip-class runs |
| `GoVariant.AsConfig` | check_anagram.go:26-29 | the Go options give a strip class of exactly the non-word characters when they are not kept, and nothing else |
| `GoVariant.StripInput` | check_anagram.go:61-70 | no capitals unless case is kept; with non-word characters stripped only word characters remain, each as often as in the folded input; the result is a subsequence of the folded input; with both flags set the input is returned as is |
| `GoVariant.StripInputAgreesWithCpp` | check_anagram.go:61-70 | the Go normaliser equals the C++ one with an empty ignore set |
| `GoVariant.CheckAnagrams` | check_anagram.go:48-59 | false on different lengths; otherwise true exactly when the sorted rune sequences are equal, that is, when the multisets are equal |
| `GoVariant.CheckArity` | check_anagram.go:88-92 | the arity check fails with "incorrect number of inputs" exactly when there are not two positionals, and passes empty strings through |
| `GoVariant.Run` | check_anagram.go:88-102 | a run succeeds exactly when there are two positionals and otherwise fails with "incorrect number of inputs"; it answers whether the normalised strings hold the same characters |
| `GoVariant.EmptyInputsAccepted` | check_anagram.go:88-92 | unlike the C++ program, two empty inputs are compared, and they are anagrams |

## Left out

- Cli.Run: the program as written differs from the model when the ignore set holds
  an unescaped '-' inside the bracket body, with an ignore character or `\W` before
  it and an ignore character after it. The program then does one of two things,
  and the model does neither: it strips only the listed characters and always
  answers. A '-' at either end of the body is a literal, and the two agree there.
  - When the '-' sits between two characters in order, the program strips a whole
    range (`StripClass.DashIgnoreSetBecomesRange`). For example,
    `--keep-case --keep-nonword --ignore-chars a-z b c` strips both inputs to ""
    and prints "Yes.", where `Run` answers false.
  - When the range is reversed (`z-a`), follows `\W` (`--ignore-chars -z` without
    `--keep-nonword` gives `[\W-z]`), or is followed by another '-' (`a-b-c`), the
    regex constructor at check_anagram.cc:56 throws. The program then stops without
    printing "Yes." or "No." (`StripClass.ReversedDashIgnoreSetIsRejected`).

  The model follows the option's documented meaning.
  `StripClass.CreateStripRegexFaithfulWithoutDash` shows that the two agree
  whenever the ignore set holds no '-', and `StripClass.TrailingDashIgnoreSetIsLiteral`
  shows that they agree for a trailing '-'.
- Normalize.StripInput: for the same reason, it deletes the literal strip class.
  It does not model the range that the compiled regex deletes, or the exception
  that stops the program, when an unescaped '-' sits inside the bracket body.
- Option parsing (boost `program_options` and Go `flag`): the options arrive as an
  already parsed `Config` or `ProgramArguments`. This includes `--help`, unknown or
  malformed options, usage text, and the exact wording of the option library's own
  error messages. Only the final checks on the positional strings are modelled.
- Printing "Yes."/"No." (C++) or "Yes"/"No" (Go), the error prefix on standard
  error, and exit codes. These are I/O; `Run` returns the boolean or the error message.
- The regex engine itself. The strip class is a character predicate. The bracket
  reader in `Escape` covers only the syntax these regexes can contain: literals,
  escaped punctuation, `\W` and ranges. The reader returns `None` for a source that is
  refused or not modelled. "Refused" covers the range forms the regex compiler rejects:
  a range with `\W` at one end, a reversed range, and a range directly followed by a
  further '-'. "Not modelled" covers syntax outside this subset, such as `\d` or an
  unescaped bracket, which the program never builds from an escaped ignore set. So
  with non-word stripping on, an ignore set that starts with '-' reads as `None`
  (refused).
- Non-ASCII behaviour. Go's `strings.ToLower` is Unicode-aware, and boost's
  `to_lower` and `\W` depend on the locale. Here lower-casing maps only 'A'-'Z', and
  every non-ASCII character is a non-word character, as in Go's RE2.
- Go `CheckAnagrams` compares byte lengths and then sorts runes. In the ASCII model
  a byte, a rune and a `char` coincide, so `GoVariant.CheckAnagrams` uses the C++
  core. For multi-byte UTF-8 input the byte-length test is not modelled.
- The global mutable argument records of both programs: they are replaced by
  immutable values passed as parameters.
- check_anagram.py is not part of this model. It declares a duplicate parameter, so
  it is not valid Python, and it compares a string with itself.
- C++ `std::sort` on `char` may order bytes above 127 as negative numbers. The answer
  depends only on equality of the sorted copies, which any total order gives, so the
  model uses code-point order throughout.

## Findings

| source | as written | input that shows it | evidently intended | confidence | as-written member | corrected member |
|---|---|---|---|---|---|---|
| check_anagram.cc:38-54 | `RegexEscape` escapes fifteen metacharacters but not '-', and its output is placed inside `[...]`, where an unescaped '-' between two characters forms a range | `--ignore-chars a-z` with `--keep-case --keep-nonword`: the class becomes `[a-z]`, so "b" is stripped although the option promises to ignore only 'a', '-' and 'z' | every character of the ignore set is stripped literally and nothing else is added (escape '-' too) | not executed | `StripClass.DashIgnoreSetBecomesRange` | `StripClass.CreateStripRegexFixedFaithful` |
| check_anagram.cc:38-56 | the same unescaped '-' can form a range the regex compiler refuses, and the resulting exception at the constructor is not caught, so the program ends without an answer | `--keep-case --keep-nonword --ignore-chars z-a`: the class source is `[z-a]`, a reversed range | every ignore set compiles to a class of its literal characters | not executed | `StripClass.ReversedDashIgnoreSetIsRejected` | `StripClass.CreateStripRegexFixedFaithful` |

The normaliser (`Normalize.StripInput`) uses the intended strip class
`InStripClass`, in which every ignore character is literal.
`StripClass.CreateStripRegexFixedFaithful` proves that the corrected regex
source (`StripClass.CreateStripRegexFixed`, built with
`Escape.RegexEscapeFixed`) denotes exactly that class.

=== FILE: anagram.dfy ===
/**
  The anagram check of the C++ program: reject at once on a length mismatch,
  otherwise sort both strings and compare the sorted copies.
*/
module Anagram {
  import opened Sorting

  /** `CheckAnagrams(a, b)`: true exactly when `a` and `b` hold the same
      characters with the same multiplicities. */
  function CheckAnagrams(a: string, b: string): (r: bool)
    ensures |a| != |b| ==> !r
    ensures r <==> multiset(a) == multiset(b)
  {
    if |a| != |b| then
      assert |multiset(a)| != |multiset(b)|;
      false
    else
      SortDeterminedByMultiset(a, b);
      Sort(a) == Sort(b)
  }

  /** The length test is only a fast path: dropping it changes no answer. */
  lemma FastPathIsRedundant(a: string, b: string)
    ensures CheckAnagrams(a, b) <==> Sort(a) == Sort(b)
  {
    SortDeterminedByMultiset(a, b);
  }

  lemma CheckAnagramsSymmetric(a: string, b: string)
    ensures CheckAnagrams(a, b) == CheckAnagrams(b, a)
  {
  }

  /** Swapping two positions gives a permutation the check accepts. */
  lemma {:induction false} CheckAnagramsSwap(a: string, i: nat, j: nat)
    requires i < j < |a|
    ensures CheckAnagrams(a, a[..i] + [a[j]] + a[i+1..j] + [a[i]] + a[j+1..])
  {
    var b := a[..i] + [a[j]] + a[i+1..j] + [a[i]] + a[j+1..];
    assert a == a[..i] + [a[i]] + a[i+1..j] + [a[j]] + a[j+1..];
    assert multiset(a) == multiset(b);
  }

  /** Rotating a string gives a permutation the check accepts. */
  lemma {:induction false} CheckAnagramsRotate(x: string, y: string)
    ensures CheckAnagrams(x + y, y + x)
  {
    assert multiset(x + y) == multiset(y + x);
  }

  /** A string is an anagram of its own sorted copy. */
  lemma CheckAnagramsSorted(a: string)
    ensures CheckAnagrams(a, Sort(a))
  {
  }
}

=== FILE: ascii.dfy ===
/**
  ASCII character classes and case folding, as the anagram checker uses them.

  The model is restricted to ASCII behaviour: lower-casing maps exactly the
  letters 'A'..'Z' and leaves every other character alone, and a word
  character is one of [A-Za-z0-9_] (the class matched by `\w`; everything
  else, non-ASCII included, is matched by `\W`).
*/
module Ascii {

  predicate IsUpper(c: char) { 'A' <= c <= 'Z' }

  predicate IsLower(c: char) { 'a' <= c <= 'z' }

  predicate IsDigit(c: char) { '0' <= c <= '9' }

  /** Membership in the regex class `\w`; `\W` is its complement. */
  predicate IsWordChar(c: char) {
    IsUpper(c) || IsLower(c) || IsDigit(c) || c == '_'
  }

  /** True iff no character of `s` is an ASCII capital letter. */
  predicate NoUpper(s: string) {
    forall k :: 0 <= k < |s| ==> !IsUpper(s[k])
  }

  /** Lower-cases one character: capitals move down by 32 code points. */
  function LowerChar(c: char): (r: char)
    ensures !IsUpper(r)
    ensures IsUpper(c) ==> IsLower(r) && r as int == c as int + ('a' as int - 'A' as int)
    ensures !IsUpper(c) ==> r == c
    ensures IsWordChar(r) <==> IsWordChar(c)
  {
    if IsUpper(c) then (c as int + ('a' as int - 'A' as int)) as char else c
  }

  /** Lower-cases a whole string, character by character. */
  function ToLower(s: string): (r: string)
    ensures |r| == |s|
    ensures NoUpper(r)
    ensures forall k :: 0 <= k < |s| && !IsUpper(s[k]) ==> r[k] == s[k]
    ensures forall k :: 0 <= k < |s| && IsUpper(s[k]) ==> IsLower(r[k])
    ensures forall k :: 0 <= k < |s| && IsUpper(s[k]) ==>
      r[k] as int == s[k] as int + ('a' as int - 'A' as int)
  {
    seq(|s|, k requires 0 <= k < |s| => LowerChar(s[k]))
  }

  /** Lower-casing changes nothing in a string without capitals; in
      particular it is idempotent. */
  lemma ToLowerFixesNoUpper(s: string)
    requires NoUpper(s)
    ensures ToLower(s) == s
  {
  }

  lemma ToLowerIdempotent(s: string)
    ensures ToLower(ToLower(s)) == ToLower(s)
  {
    ToLowerFixesNoUpper(ToLower(s));
  }
}

=== FILE: cli.dfy ===
/**
  The C++ program's pipeline around the core: the final validity check of
  `ParseProgramArguments` on the positional strings, then normalise both
  strings and compare them.  Option syntax, `--help`, printing and exit codes
  are not modelled; the options arrive already parsed as a `Config`.
*/
module Cli {
  import opened Ascii
  import opened Outcomes
  import opened StripClass
  import opened Normalize
  import opened Anagram

  /** Binds the positional arguments to `string1` and `string2`.  Missing
      ones stay empty (the program's argument record starts out zeroed); a
      third positional is an error; so is an empty string in either place. */
  function BindInputs(positionals: seq<string>): (r: Result<(string, string), string>)
    ensures |positionals| > 2 ==> r == Err("too many inputs")
    ensures |positionals| <= 2 ==> (r.Err? <==> r == Err("not enough inputs"))
    ensures r.Ok? <==> |positionals| == 2 && positionals[0] != "" && positionals[1] != ""
    ensures r.Ok? ==> r.value == (positionals[0], positionals[1])
  {
    if |positionals| > 2 then Err("too many inputs")
    else
      var string1 := if |positionals| >= 1 then positionals[0] else "";
      var string2 := if |positionals| == 2 then positionals[1] else "";
      if string1 == "" || string2 == "" then Err("not enough inputs")
      else Ok((string1, string2))
  }

  /** One run of the program: validate the inputs, normalise each, and
      answer whether the normalised strings are anagrams. */
  function Run(cfg: Config, positionals: seq<string>): (r: Result<bool, string>)
    ensures r.Ok? <==> BindInputs(positionals).Ok?
    ensures r.Err? ==> r == Err(BindInputs(positionals).error)
    ensures r.Ok? ==>
      (r.value <==> multiset(StripInput(cfg, positionals[0])) == multiset(StripInput(cfg, positionals[1])))
  {
    match BindInputs(positionals)
    case Err(e) => Err(e)
    case Ok((string1, string2)) => Ok(CheckAnagrams(StripInput(cfg, string1), StripInput(cfg, string2)))
  }

  /** The order of the two inputs does not matter. */
  lemma RunSymmetric(cfg: Config, a: string, b: string)
    ensures Run(cfg, [a, b]) == Run(cfg, [b, a])
  {
  }

  /** Feeding already-normalised (non-empty) strings back in gives the
      same answer. */
  lemma RunOnNormalizedInputs(cfg: Config, a: string, b: string)
    requires a != "" && b != ""
    requires StripInput(cfg, a) != "" && StripInput(cfg, b) != ""
    ensures Run(cfg, [StripInput(cfg, a), StripInput(cfg, b)]) == Run(cfg, [a, b])
  {
    StripInputIdempotent(cfg, a);
    StripInputIdempotent(cfg, b);
  }

  /** An empty first input is rejected before anything is compared. */
  lemma EmptyInputRejected(cfg: Config, b: string)
    ensures Run(cfg, ["", b]) == Err("not enough inputs")
  {
  }

  /** A third positional argument is rejected. */
  lemma ThreeInputsRejected(cfg: Config, a: string, b: string, c: string)
    ensures Run(cfg, [a, b, c]) == Err("too many inputs")
  {
  }

  /** A run on two non-empty inputs with known normal forms answers
      whether those normal forms hold the same characters. */
  lemma RunFromNormalForms(cfg: Config, x: string, y: string, nx: string, ny: string)
    requires x != "" && y != ""
    requires StripInput(cfg, x) == nx && StripInput(cfg, y) == ny
    ensures Run(cfg, [x, y]) == Ok(multiset(nx) == multiset(ny))
  {
  }

  // The worked examples below are stated over string literals.  Their helper
  // lemmas take the literals as parameters pinned by `requires`.  When a
  // literal string sits in the same proof as the recursive `RemoveClass` or
  // `Sort` contracts, the solver keeps unfolding it and runs out of resources;
  // a parameter equal to the literal avoids that.

  /** Default options: "Dormitory" and "Dirty Room" are anagrams. */
  lemma DormitoryScenario()
    ensures Run(Config(false, false, ""), ["Dormitory", "Dirty Room"]) == Ok(true)
  {
    DormitoryDirtyRoomSameLetters(Config(false, false, ""), "Dormitory", "Dirty Room");
  }

  lemma DormitoryDirtyRoomSameLetters(cfg: Config, x: string, y: string)
    requires cfg == Config(false, false, "")
    requires x == "Dormitory" && y == "Dirty Room"
    ensures multiset(StripInput(cfg, x)) == multiset(StripInput(cfg, y))
  {
    DormitoryNormalForm(cfg, x, "dormitory");
    DirtyRoomNormalForm(cfg, y, "dirty", " ", "room");
    DormitoryLetters("dormitory", "dirty" + "room");
  }

  lemma DormitoryLetters(p: string, q: string)
    requires p == "dormitory" && q == "dirty" + "room"
    ensures multiset(p) == multiset(q)
  {
  }

  lemma DormitoryNormalForm(cfg: Config, x: string, t: string)
    requires cfg == Config(false, false, "") && x == "Dormitory" && t == "dormitory"
    ensures StripInput(cfg, x) == t
  {
    assert ToLower(x) == t;
    forall k | 0 <= k < |t|
      ensures !InStripClass(cfg, t[k])
    {
      assert k in {0, 1, 2, 3, 4, 5, 6, 7, 8};
    }
    RemoveClassKeepsClean(cfg, t);
  }

  lemma DirtyRoomNormalForm(cfg: Config, y: string, a: string, g: string, b: string)
    requires cfg == Config(false, false, "") && y == "Dirty Room"
    requires a == "dirty" && g == " " && b == "room"
    ensures StripInput(cfg, y) == a + b
  {
    assert ToLower(y) == a + g + b;
    forall k | 0 <= k < |a|
      ensures !InStripClass(cfg, a[k])
    {
      assert k in {0, 1, 2, 3, 4};
    }
    forall k | 0 <= k < |b|
      ensures !InStripClass(cfg, b[k])
    {
      assert k in {0, 1, 2, 3};
    }
    forall k | 0 <= k < |g|
      ensures InStripClass(cfg, g[k])
    {
    }
    NormalFormAroundGap(cfg, y, a, g, b);
  }

  /** An input that folds to clean text, a run of strip-class characters,
      and clean text again normalises to the two clean pieces joined. */
  lemma NormalFormAroundGap(cfg: Config, s: string, a: string, g: string, b: string)
    requires FoldCase(cfg, s) == a + g + b
    requires forall k :: 0 <= k < |a| ==> !InStripClass(cfg, a[k])
    requires forall k :: 0 <= k < |g| ==> InStripClass(cfg, g[k])
    requires forall k :: 0 <= k < |b| ==> !InStripClass(cfg, b[k])
    ensures StripInput(cfg, s) == a + b
  {
    RemoveClassCutsGap(cfg, a, g, b);
    RemoveClassKeepsClean(cfg, a);
    RemoveClassKeepsClean(cfg, b);
  }

  /** With `--keep-case`, "Listen" and "Silent" are NOT anagrams: 'L' and
      'S' stay capitals while 'l' and 's' appear in lower case. */
  lemma KeepCaseScenario()
    ensures Run(Config(true, false, ""), ["Listen", "Silent"]) == Ok(false)
  {
    KeepCaseAnswer(Config(true, false, ""), "Listen", "Silent");
  }

  lemma KeepCaseAnswer(cfg: Config, x: string, y: string)
    requires cfg == Config(true, false, "")
    requires x == "Listen" && y == "Silent"
    ensures Run(cfg, [x, y]) == Ok(false)
  {
    CapitalizedWordNormalForm(cfg, x);
    CapitalizedWordNormalForm(cfg, y);
    RunFromNormalForms(cfg, x, y, x, y);
    assert multiset(x)['L'] == 1;
    assert multiset(y)['L'] == 0;
  }

  lemma CapitalizedWordNormalForm(cfg: Config, x: string)
    requires cfg == Config(true, false, "")
    requires x == "Listen" || x == "Silent"
    ensures StripInput(cfg, x) == x
  {
    forall k | 0 <= k < |x|
      ensures !InStripClass(cfg, x[k])
    {
      assert k in {0, 1, 2, 3, 4, 5};
    }
    RemoveClassKeepsClean(cfg, x);
  }

  /** Punctuation is dropped by default; with `--keep-nonword` it stays and
      the lengths differ. */
  lemma PunctuationScenario()
    ensures Run(Config(false, false, ""), ["a.b,c", "cba"]) == Ok(true)
    ensures Run(Config(false, true, ""), ["a.b,c", "cba"]) == Ok(false)
  {
    PunctuationAnswer(Config(false, false, ""), "a.b,c", "cba");
  }

  lemma PunctuationAnswer(cfg: Config, x: string, y: string)
    requires cfg == Config(false, false, "")
    requires x == "a.b,c" && y == "cba"
    ensures Run(cfg, [x, y]) == Ok(true)
    ensures Run(cfg.(keepNonword := true), [x, y]) == Ok(false)
  {
    PunctuationSameLetters(cfg, x, y);
    var cfg' := cfg.(keepNonword := true);
    KeptPunctuationNormalForm(cfg', x, y);
    RunFromNormalForms(cfg', x, y, x, y);
    assert |multiset(x)| != |multiset(y)|;
  }

  lemma PunctuationSameLetters(cfg: Config, x: string, y: string)
    requires cfg == Config(false, false, "")
    requires x == "a.b,c" && y == "cba"
    ensures multiset(StripInput(cfg, x)) == multiset(StripInput(cfg, y))
  {
    PunctuationNormalForm(cfg, x, "a", ".", "b", ",", "c");
    LowerWordNormalForm(cfg, y);
    PunctuationLetters("a" + "b" + "c", y);
  }

  lemma PunctuationLetters(p: string, q: string)
    requires p == "a" + "b" + "c" && q == "cba"
    ensures multiset(p) == multiset(q)
  {
  }

  lemma LowerWordNormalForm(cfg: Config, y: string)
    requires cfg == Config(false, false, "") && y == "cba"
    ensures StripInput(cfg, y) == y
  {
    assert ToLower(y) == y;
    forall k | 0 <= k < |y|
      ensures !InStripClass(cfg, y[k])
    {
      assert k in {0, 1, 2};
    }
    RemoveClassKeepsClean(cfg, y);
  }

  lemma KeptPunctuationNormalForm(cfg: Config, x: string, y: string)
    requires cfg == Config(false, true, "") && x == "a.b,c" && y == "cba"
    ensures StripInput(cfg, x) == x && StripInput(cfg, y) == y
  {
    assert ToLower(x) == x && ToLower(y) == y;
    StripInputOnlyFolds(cfg, x);
    StripInputOnlyFolds(cfg, y);
  }

  lemma PunctuationNormalForm(cfg: Config, x: string, a: string, p: string, b: string, q: string, c: string)
    requires cfg == Config(false, false, "") && x == "a.b,c"
    requires a == "a" && p == "." && b == "b" && q == "," && c == "c"
    ensures StripInput(cfg, x) == a + b + c
  {
    assert ToLower(x) == a + p + (b + q + c);
    NormalFormAroundTwoGaps(cfg, x, a, p, b, q, c);
  }

  /** The same with two runs of strip-class characters. */
  lemma NormalFormAroundTwoGaps(cfg: Config, s: string, a: string, p: string, b: string, q: string, c: string)
    requires FoldCase(cfg, s) == a + p + (b + q + c)
    requires forall k :: 0 <= k < |a| ==> !InStripClass(cfg, a[k])
    requires forall k :: 0 <= k < |p| ==> InStripClass(cfg, p[k])
    requires forall k :: 0 <= k < |b| ==> !InStripClass(cfg, b[k])
    requires forall k :: 0 <= k < |q| ==> InStripClass(cfg, q[k])
    requires forall k :: 0 <= k < |c| ==> !InStripClass(cfg, c[k])
    ensures StripInput(cfg, s) == a + b + c
  {
    calc {
      StripInput(cfg, s);
      RemoveClass(cfg, a + p + (b + q + c));
      { RemoveClassCutsGap(cfg, a, p, b + q + c); }
      RemoveClass(cfg, a) + RemoveClass(cfg, b + q + c);
      { RemoveClassCutsGap(cfg, b, q, c); }
      RemoveClass(cfg, a) + (RemoveClass(cfg, b) + RemoveClass(cfg, c));
      { RemoveClassKeepsClean(cfg, a); RemoveClassKeepsClean(cfg, b); RemoveClassKeepsClean(cfg, c); }
      a + (b + c);
      a + b + c;
    }
  }
}

=== FILE: escape.dfy ===
/**
  `RegexEscape` of the C++ program, and a reader for the bracket expressions
  (`[...]`) that `CreateStripRegex` builds from its output.

  `RegexEscape` puts one backslash in front of each of fifteen regex
  metacharacters.  The escaping is modelled for an arbitrary set `meta` of
  characters to escape, so that the original set and the corrected set (the
  same fifteen plus '-') share one definition.

  The reader covers the bracket-expression syntax these strings can contain:
  plain characters, a backslash followed by a punctuation character (that
  character, literally), the class escape `\W`, and ranges `x-y`.  Everything
  else (other escapes such as `\d`, an unescaped bracket, a negated class) is
  rejected as outside the model, and so are the range forms the regex
  compiler refuses: a reversed range, a range with a class escape at either
  end, and a range directly followed by a '-' that does not close the body.
  Only this subset is read; it is not a complete bracket-expression grammar.
*/
module Escape {
  import opened Ascii
  import opened Outcomes

  /** The fifteen characters `RegexEscape` prefixes with a backslash. */
  const RegexSpecials: set<char> :=
    {'^', '.', '$', '|', '{', '}', '(', ')', '[', ']', '*', '+', '?', '/', '\\'}

  /** `RegexSpecials` plus '-', the character that forms ranges inside a
      bracket expression and that the original set leaves out. */
  const BracketSpecials: set<char> := RegexSpecials + {'-'}

  function EscapeChar(meta: set<char>, c: char): string {
    if c in meta then ['\\', c] else [c]
  }

  /** Number of positions of `s` holding a member of `meta`. */
  function CountIn(meta: set<char>, s: string): nat {
    if |s| == 0 then 0 else (if s[0] in meta then 1 else 0) + CountIn(meta, s[1..])
  }

  /** Escapes every member of `meta` in `s` with one backslash. */
  function EscapeUsing(meta: set<char>, s: string): (r: string)
    ensures |r| == |s| + CountIn(meta, s)
  {
    if |s| == 0 then [] else EscapeChar(meta, s[0]) + EscapeUsing(meta, s[1..])
  }

  /** Drops each backslash that precedes a member of `meta`, reading left to
      right; every other character is kept. */
  function UnescapeUsing(meta: set<char>, r: string): (s: string)
    decreases |r|
  {
    if |r| == 0 then []
    else if |r| >= 2 && r[0] == '\\' && r[1] in meta then [r[1]] + UnescapeUsing(meta, r[2..])
    else [r[0]] + UnescapeUsing(meta, r[1..])
  }

  /** Escaping distributes over concatenation: it works character by character. */
  lemma {:induction false} EscapeAppend(meta: set<char>, a: string, b: string)
    ensures EscapeUsing(meta, a + b) == EscapeUsing(meta, a) + EscapeUsing(meta, b)
  {
    if |a| > 0 {
      assert (a + b)[1..] == a[1..] + b;
      assert EscapeUsing(meta, a + b) == EscapeChar(meta, a[0]) + EscapeUsing(meta, a[1..] + b);
      EscapeAppend(meta, a[1..], b);
    } else {
      assert a + b == b;
    }
  }

  /** A string without metacharacters is its own escape. */
  lemma {:induction false} EscapeIdentity(meta: set<char>, s: string)
    requires forall k :: 0 <= k < |s| ==> s[k] !in meta
    ensures EscapeUsing(meta, s) == s
  {
    if |s| > 0 {
      EscapeIdentity(meta, s[1..]);
    }
  }

  /** Removing the escaping backslashes recovers the input, provided the
      backslash is itself escaped (otherwise a literal backslash in front of
      a metacharacter would be read back as an escape). */
  lemma {:induction false} UnescapeEscape(meta: set<char>, s: string)
    requires '\\' in meta
    ensures UnescapeUsing(meta, EscapeUsing(meta, s)) == s
  {
    if |s| > 0 {
      var rest := EscapeUsing(meta, s[1..]);
      UnescapeEscape(meta, s[1..]);
      if s[0] in meta {
        assert EscapeUsing(meta, s) == ['\\', s[0]] + rest;
        assert (['\\', s[0]] + rest)[2..] == rest;
      } else {
        assert EscapeUsing(meta, s) == [s[0]] + rest;
        assert ([s[0]] + rest)[1..] == rest;
      }
      assert s == [s[0]] + s[1..];
    }
  }

  /** `RegexEscape` as written: the fifteen metacharacters get a backslash,
      every other character is copied, and the escaping can be undone. */
  function RegexEscape(s: string): (r: string)
    ensures |r| == |s| + CountIn(RegexSpecials, s)
    ensures UnescapeUsing(RegexSpecials, r) == s
    ensures (forall k :: 0 <= k < |s| ==> s[k] !in RegexSpecials) ==> r == s
  {
    UnescapeEscape(RegexSpecials, s);
    assert (forall k :: 0 <= k < |s| ==> s[k] !in RegexSpecials) ==> EscapeUsing(RegexSpecials, s) == s by {
      if forall k :: 0 <= k < |s| ==> s[k] !in RegexSpecials {
        EscapeIdentity(RegexSpecials, s);
      }
    }
    EscapeUsing(RegexSpecials, s)
  }

  /** The corrected escape, which also protects '-'. */
  function RegexEscapeFixed(s: string): (r: string)
    ensures |r| == |s| + CountIn(BracketSpecials, s)
    ensures UnescapeUsing(BracketSpecials, r) == s
  {
    UnescapeEscape(BracketSpecials, s);
    EscapeUsing(BracketSpecials, s)
  }

  // ---------------------------------------------------------------------
  // Reading a bracket expression

  /** One unit of a bracket body: a character, or the class `\W`. */
  datatype Atom = Char(c: char) | NonWordClass

  /** One member description of a bracket expression. */
  datatype Item = Lit(c: char) | NonWord | Range(lo: char, hi: char)

  predicate IsAlnum(c: char) { IsUpper(c) || IsLower(c) || IsDigit(c) }

  predicate ItemMatches(item: Item, c: char) {
    match item
    case Lit(x) => c == x
    case NonWord => !IsWordChar(c)
    case Range(lo, hi) => lo <= c <= hi
  }

  /** True iff some item of the class matches `c`. */
  predicate Member(items: seq<Item>, c: char) {
    exists k :: 0 <= k < |items| && ItemMatches(items[k], c)
  }

  /** The class that matches exactly the characters of `s`. */
  function Lits(s: string): (items: seq<Item>)
    ensures |items| == |s|
    ensures forall k :: 0 <= k < |s| ==> items[k] == Lit(s[k])
  {
    seq(|s|, k requires 0 <= k < |s| => Lit(s[k]))
  }

  lemma LitsMember(s: string, c: char)
    ensures Member(Lits(s), c) <==> c in s
  {
    if c in s {
      var k :| 0 <= k < |s| && s[k] == c;
      assert ItemMatches(Lits(s)[k], c);
    }
  }

  function ItemOf(a: Atom): Item {
    match a
    case Char(c) => Lit(c)
    case NonWordClass => NonWord
  }

  function Cons(item: Item, rest: Option<seq<Item>>): (r: Option<seq<Item>>)
    ensures r.Some? <==> rest.Some?
    ensures r.Some? ==> r.value == [item] + rest.value
  {
    match rest
    case None => None
    case Some(items) => Some([item] + items)
  }

  /** Reads the atom at the start of a bracket body and returns what follows. */
  function ReadAtom(b: string): (r: Option<(Atom, string)>)
    requires |b| > 0
    ensures r.Some? ==> |r.value.1| < |b|
  {
    if b[0] == '\\' then
      if |b| < 2 then None
      else if b[1] == 'W' then Some((NonWordClass, b[2..]))
      else if IsAlnum(b[1]) then None
      else Some((Char(b[1]), b[2..]))
    else if b[0] == '[' || b[0] == ']' then None
    else Some((Char(b[0]), b[1..]))
  }

  /** `b` continues with a '-' that is not the last character of the body. */
  predicate StartsRange(b: string) {
    |b| >= 2 && b[0] == '-'
  }

  /** Reads a whole bracket body into its items.  A '-' between two atoms
      forms a range; a '-' at either end of the body is a literal; a range
      directly followed by another such '-' is rejected. */
  function ParseBody(b: string): Option<seq<Item>>
    decreases |b|
  {
    if |b| == 0 then Some([])
    else
      match ReadAtom(b)
      case None => None
      case Some((first, rest)) =>
        if StartsRange(rest) then
          match ReadAtom(rest[1..])
          case None => None
          case Some((last, rest')) =>
            if first.Char? && last.Char? && first.c <= last.c && !StartsRange(rest') then
              Cons(Range(first.c, last.c), ParseBody(rest'))
            else None
        else Cons(ItemOf(first), ParseBody(rest))
  }

  /** The characters the compiled strip regex deletes, read from its source:
      the empty pattern only matches the empty string and deletes nothing;
      `[body]` deletes the members of the body.  `None` means the source is
      refused (the range forms `ParseBody` rejects, which the regex compiler
      refuses too) or is outside the modelled syntax. */
  function CompileClass(src: string): Option<seq<Item>> {
    if |src| == 0 then Some([])
    else if |src| >= 3 && src[0] == '[' && src[|src| - 1] == ']' && src[1] != '^' then
      ParseBody(src[1..|src| - 1])
    else None
  }

  /** Escape sets under which an escaped string reads back as literals:
      the backslash, both brackets and the negation mark '^' are escaped, and no escaped character
      is a letter or digit (those would form escapes such as `\W` or `\d`). */
  predicate BracketSafe(meta: set<char>) {
    && '\\' in meta && '[' in meta && ']' in meta && '^' in meta
    && forall c :: c in meta ==> !IsAlnum(c)
  }

  lemma SpecialSetsAreBracketSafe()
    ensures BracketSafe(RegexSpecials)
    ensures BracketSafe(BracketSpecials)
  {
  }

  /** An atom not followed by '-' is read as a single item. */
  lemma ParseSingleAtom(b: string, a: Atom, rest: string)
    requires |b| > 0 && ReadAtom(b) == Some((a, rest))
    requires |rest| == 0 || rest[0] != '-'
    ensures ParseBody(b) == Cons(ItemOf(a), ParseBody(rest))
  {
  }

  /** The escape of a non-empty string starts with one atom: its first
      character, escaped or not. */
  lemma ReadEscapedHead(meta: set<char>, s: string)
    requires BracketSafe(meta) && |s| > 0
    ensures ReadAtom(EscapeUsing(meta, s)) == Some((Char(s[0]), EscapeUsing(meta, s[1..])))
    ensures EscapeUsing(meta, s)[0] == '-' ==> s[0] == '-' && '-' !in meta
  {
    var c := s[0];
    var rest := EscapeUsing(meta, s[1..]);
    var e := EscapeUsing(meta, s);
    if c in meta {
      assert e == ['\\', c] + rest;
      assert e[2..] == rest;
      assert !IsAlnum(c);
    } else {
      assert e == [c] + rest;
      assert e[1..] == rest;
    }
  }

  lemma LitsCons(s: string)
    requires |s| > 0
    ensures Lits(s) == [Lit(s[0])] + Lits(s[1..])
  {
  }

  /** Under a bracket-safe escape, the escaped string reads back as one
      literal per input character, as long as no unescaped '-' can sit
      between two atoms; and the escaped string never starts with '-'. */
  lemma {:induction false} ParseEscaped(meta: set<char>, s: string)
    requires BracketSafe(meta)
    requires '-' in meta || '-' !in s
    ensures ParseBody(EscapeUsing(meta, s)) == Some(Lits(s))
    ensures |EscapeUsing(meta, s)| > 0 ==> EscapeUsing(meta, s)[0] != '-'
  {
    if |s| > 0 {
      var rest := EscapeUsing(meta, s[1..]);
      assert s == [s[0]] + s[1..];
      assert '-' in meta || '-' !in s[1..];
      ParseEscaped(meta, s[1..]);
      ReadEscapedHead(meta, s);
      ParseSingleAtom(EscapeUsing(meta, s), Char(s[0]), rest);
      LitsCons(s);
    }
  }

  /** The class escape `\W` in front of an escaped string. */
  lemma ParseNonWordThenEscaped(meta: set<char>, s: string)
    requires BracketSafe(meta)
    requires '-' in meta || '-' !in s
    ensures ParseBody("\\W" + EscapeUsing(meta, s)) == Some([NonWord] + Lits(s))
  {
    ParseEscaped(meta, s);
    var e := EscapeUsing(meta, s);
    var b := "\\W" + e;
    assert b[2..] == e;
    assert ReadAtom(b) == Some((NonWordClass, e));
  }
}

=== FILE: go_variant.dfy ===
/**
  The Go program: the same pipeline without an ignore set.  Its
  `StripInput` lower-cases unless case is kept and then, unless non-word
  characters are kept, deletes every match of RE2's ASCII-only `\W`; its
  `CheckAnagrams` compares byte lengths and then the rune sequences sorted
  by `SortableRunes.Less`.  In the ASCII model a byte is a rune is a `char`.
*/
module GoVariant {
  import opened Ascii
  import opened Outcomes
  import opened StripClass
  import Normalize
  import Anagram
  import Sorting

  /** The Go program's options. */
  datatype ProgramArguments = ProgramArguments(keepCase: bool, keepNonword: bool)

  /** The Go options as a configuration with an empty ignore set. */
  function AsConfig(args: ProgramArguments): (cfg: Config)
    ensures cfg.keepCase == args.keepCase && cfg.keepNonword == args.keepNonword
    ensures cfg.ignoreChars == ""
    ensures forall c :: InStripClass(cfg, c) <==> !args.keepNonword && !IsWordChar(c)
  {
    Config(args.keepCase, args.keepNonword, "")
  }

  /** Go `StripInput`. */
  function StripInput(args: ProgramArguments, input: string): (r: string)
    ensures !args.keepCase ==> NoUpper(r)
    ensures !args.keepNonword ==> forall k :: 0 <= k < |r| ==> IsWordChar(r[k])
    ensures !args.keepNonword ==>
      forall c :: IsWordChar(c) ==> multiset(r)[c] == multiset(Normalize.FoldCase(AsConfig(args), input))[c]
    ensures Normalize.IsSubsequence(r, Normalize.FoldCase(AsConfig(args), input))
    ensures args.keepNonword && args.keepCase ==> r == input
    ensures args.keepNonword ==> |r| == |input|
  {
    var s := if !args.keepCase then ToLower(input) else input;
    if !args.keepNonword then
      Normalize.RemoveClass(AsConfig(args), s)
    else
      Normalize.SubsequenceReflexive(s);
      s
  }

  /** The Go normaliser is the C++ one with an empty ignore set. */
  lemma StripInputAgreesWithCpp(args: ProgramArguments, input: string)
    ensures StripInput(args, input) == Normalize.StripInput(AsConfig(args), input)
  {
    if args.keepNonword {
      Normalize.StripInputOnlyFolds(AsConfig(args), input);
    }
  }

  /** Go `CheckAnagrams`: false on a length mismatch, otherwise whether the
      rune sequences sorted by `SortableRunes.Less` are equal; that is,
      whether both strings hold the same runes. */
  function CheckAnagrams(a: string, b: string): (r: bool)
    ensures |a| != |b| ==> !r
    ensures r <==> multiset(a) == multiset(b)
    ensures r <==> Sorting.Sort(a) == Sorting.Sort(b)
  {
    Anagram.FastPathIsRedundant(a, b);
    Anagram.CheckAnagrams(a, b)
  }

  /** Go `ParseCommandLine`'s arity check: exactly two positional strings,
      empty ones included. */
  function CheckArity(positionals: seq<string>): (r: Result<(string, string), string>)
    ensures r.Err? <==> |positionals| != 2
    ensures r.Err? ==> r.error == "incorrect number of inputs"
    ensures r.Ok? ==> r.value == (positionals[0], positionals[1])
  {
    if |positionals| != 2 then Err("incorrect number of inputs")
    else Ok((positionals[0], positionals[1]))
  }

  /** One run of the Go program. */
  function Run(args: ProgramArguments, positionals: seq<string>): (r: Result<bool, string>)
    ensures r.Ok? <==> |positionals| == 2
    ensures r.Err? ==> r.error == "incorrect number of inputs"
    ensures r.Ok? ==>
      (r.value <==> multiset(StripInput(args, positionals[0])) == multiset(StripInput(args, positionals[1])))
  {
    match CheckArity(positionals)
    case Err(e) => Err(e)
    case Ok((string1, string2)) => Ok(CheckAnagrams(StripInput(args, string1), StripInput(args, string2)))
  }

  /** Unlike the C++ program, the Go program compares empty inputs: two
      empty strings are anagrams. */
  lemma EmptyInputsAccepted(args: ProgramArguments)
    ensures Run(args, ["", ""]) == Ok(true)
  {
    assert StripInput(args, "") == "" by {
      Normalize.SubsequenceMultiset(StripInput(args, ""), Normalize.FoldCase(AsConfig(args), ""));
    }
  }
}

=== FILE: normalize.dfy ===
/**
  The normaliser of the C++ program, `StripInput`: lower-case the input
  unless case is kept, then delete every character of the strip class and
  keep the others in their original order.
*/
module Normalize {
  import opened Ascii
  import opened StripClass

  /** `t` can be obtained from `s` by deleting characters.  Matching greedily
      against the leftmost possible position decides this exactly. */
  predicate IsSubsequence(t: string, s: string)
    decreases |s|
  {
    if |t| == 0 then true
    else if |s| == 0 then false
    else if t[0] == s[0] then IsSubsequence(t[1..], s[1..])
    else IsSubsequence(t, s[1..])
  }

  /** A subsequence uses each character at most as often as the original. */
  lemma {:induction false} SubsequenceMultiset(t: string, s: string)
    requires IsSubsequence(t, s)
    ensures multiset(t) <= multiset(s)
    decreases |s|
  {
    if |t| > 0 {
      assert s == [s[0]] + s[1..];
      if t[0] == s[0] {
        assert t == [t[0]] + t[1..];
        SubsequenceMultiset(t[1..], s[1..]);
      } else {
        SubsequenceMultiset(t, s[1..]);
      }
    }
  }

  lemma {:induction false} SubsequenceReflexive(s: string)
    ensures IsSubsequence(s, s)
  {
    if |s| > 0 {
      SubsequenceReflexive(s[1..]);
    }
  }

  /** Lower-cases unless case is kept (the first step of `StripInput`). */
  function FoldCase(cfg: Config, s: string): (r: string)
    ensures |r| == |s|
    ensures !cfg.keepCase ==> NoUpper(r)
    ensures cfg.keepCase ==> r == s
    ensures forall k :: 0 <= k < |s| && !IsUpper(s[k]) ==> r[k] == s[k]
    ensures !cfg.keepCase ==> forall k :: 0 <= k < |s| && IsUpper(s[k]) ==>
      r[k] as int == s[k] as int + ('a' as int - 'A' as int)
  {
    if cfg.keepCase then s else ToLower(s)
  }

  /** The specification of a normalised string `t` for input `s`: an
      order-preserving selection from the case-folded input that contains
      no strip-class character and every other character as often as the
      case-folded input does. */
  predicate Normalized(cfg: Config, s: string, t: string) {
    var folded := FoldCase(cfg, s);
    && IsSubsequence(t, folded)
    && (forall k :: 0 <= k < |t| ==> !InStripClass(cfg, t[k]))
    && (forall c :: !InStripClass(cfg, c) ==> multiset(t)[c] == multiset(folded)[c])
  }

  /** Replacing every match of the strip class by nothing (the
      `regex_replace` step). */
  function RemoveClass(cfg: Config, s: string): (r: string)
    ensures IsSubsequence(r, s)
    ensures forall k :: 0 <= k < |r| ==> !InStripClass(cfg, r[k])
    ensures forall c :: !InStripClass(cfg, c) ==> multiset(r)[c] == multiset(s)[c]
  {
    if |s| == 0 then []
    else
      assert s == [s[0]] + s[1..];
      if InStripClass(cfg, s[0]) then RemoveClass(cfg, s[1..])
      else
        var rest := RemoveClass(cfg, s[1..]);
        assert ([s[0]] + rest)[1..] == rest;
        [s[0]] + rest
  }

  /** Only one string meets the three clauses of `RemoveClass`'s contract:
      they pin down its result completely. */
  lemma {:induction false} RemoveClassUnique(cfg: Config, s: string, t: string)
    requires IsSubsequence(t, s)
    requires forall k :: 0 <= k < |t| ==> !InStripClass(cfg, t[k])
    requires forall c :: !InStripClass(cfg, c) ==> multiset(t)[c] == multiset(s)[c]
    ensures t == RemoveClass(cfg, s)
    decreases |s|
  {
    if |s| == 0 {
      SubsequenceMultiset(t, s);
    } else {
      var c := s[0];
      var s' := s[1..];
      assert s == [c] + s';
      assert multiset(s) == multiset{c} + multiset(s');
      if InStripClass(cfg, c) {
        if |t| > 0 {
          assert t[0] != c;
        }
        forall d | !InStripClass(cfg, d)
          ensures multiset(t)[d] == multiset(s')[d]
        {
          assert d != c;
        }
        RemoveClassUnique(cfg, s', t);
      } else {
        assert multiset(t)[c] >= 1;
        assert |t| > 0;
        assert t[0] == c by {
          if t[0] != c {
            SubsequenceMultiset(t, s');
          }
        }
        var t' := t[1..];
        assert t == [c] + t';
        assert multiset(t) == multiset{c} + multiset(t');
        forall k | 0 <= k < |t'|
          ensures !InStripClass(cfg, t'[k])
        {
          assert t'[k] == t[k + 1];
        }
        forall d | !InStripClass(cfg, d)
          ensures multiset(t')[d] == multiset(s')[d]
        {
        }
        RemoveClassUnique(cfg, s', t');
      }
    }
  }

  /** Deletion works character by character, so it distributes over
      concatenation. */
  lemma {:induction false} RemoveClassAppend(cfg: Config, a: string, b: string)
    ensures RemoveClass(cfg, a + b) == RemoveClass(cfg, a) + RemoveClass(cfg, b)
  {
    if |a| == 0 {
      assert a + b == b;
    } else {
      assert (a + b)[0] == a[0];
      assert (a + b)[1..] == a[1..] + b;
      RemoveClassAppend(cfg, a[1..], b);
    }
  }

  /** A string with no strip-class character passes through unchanged. */
  lemma RemoveClassKeepsClean(cfg: Config, s: string)
    requires forall k :: 0 <= k < |s| ==> !InStripClass(cfg, s[k])
    ensures RemoveClass(cfg, s) == s
  {
    SubsequenceReflexive(s);
    RemoveClassUnique(cfg, s, s);
  }

  /** A string made only of strip-class characters disappears. */
  lemma RemoveClassDropsStripped(cfg: Config, s: string)
    requires forall k :: 0 <= k < |s| ==> InStripClass(cfg, s[k])
    ensures RemoveClass(cfg, s) == ""
  {
    forall c | !InStripClass(cfg, c)
      ensures multiset(s)[c] == 0
    {
    }
    RemoveClassUnique(cfg, s, "");
  }

  /** A run of strip-class characters is cut out and what surrounds it is
      normalised on its own. */
  lemma RemoveClassCutsGap(cfg: Config, a: string, g: string, b: string)
    requires forall k :: 0 <= k < |g| ==> InStripClass(cfg, g[k])
    ensures RemoveClass(cfg, a + g + b) == RemoveClass(cfg, a) + RemoveClass(cfg, b)
  {
    calc {
      RemoveClass(cfg, a + g + b);
      { RemoveClassAppend(cfg, a + g, b); }
      RemoveClass(cfg, a + g) + RemoveClass(cfg, b);
      { RemoveClassAppend(cfg, a, g); }
      RemoveClass(cfg, a) + RemoveClass(cfg, g) + RemoveClass(cfg, b);
      { RemoveClassDropsStripped(cfg, g); assert RemoveClass(cfg, a) + "" == RemoveClass(cfg, a); }
      RemoveClass(cfg, a) + RemoveClass(cfg, b);
    }
  }

  /** `StripInput`: case-fold, then remove the strip class. */
  function StripInput(cfg: Config, s: string): (r: string)
    ensures Normalized(cfg, s, r)
    ensures !cfg.keepCase ==> NoUpper(r)
    ensures cfg.keepCase ==> IsSubsequence(r, s)
  {
    var folded := FoldCase(cfg, s);
    var r := RemoveClass(cfg, folded);
    SubsequenceMultiset(r, folded);
    assert forall k :: 0 <= k < |r| ==> r[k] in multiset(folded);
    r
  }

  /** The normaliser meets its specification, and nothing else does. */
  lemma StripInputCharacterized(cfg: Config, s: string, t: string)
    ensures Normalized(cfg, s, t) <==> t == StripInput(cfg, s)
  {
    if Normalized(cfg, s, t) {
      RemoveClassUnique(cfg, FoldCase(cfg, s), t);
    }
  }

  /** Normalising twice is normalising once. */
  lemma StripInputIdempotent(cfg: Config, s: string)
    ensures StripInput(cfg, StripInput(cfg, s)) == StripInput(cfg, s)
  {
    var r := StripInput(cfg, s);
    if !cfg.keepCase {
      ToLowerFixesNoUpper(r);
    }
    assert FoldCase(cfg, r) == r;
    SubsequenceReflexive(r);
    RemoveClassUnique(cfg, r, r);
  }

  /** With non-word characters kept and nothing ignored the strip class is
      empty and the normaliser only case-folds. */
  lemma StripInputOnlyFolds(cfg: Config, s: string)
    requires cfg.keepNonword && cfg.ignoreChars == ""
    ensures StripInput(cfg, s) == FoldCase(cfg, s)
  {
    var folded := FoldCase(cfg, s);
    SubsequenceReflexive(folded);
    RemoveClassUnique(cfg, folded, folded);
  }

  /** The ignore set is not case-folded, and matching happens after
      lower-casing: when case is folded, capitals in the ignore set have no
      effect, so any two ignore sets that agree on everything else give the
      same result. */
  lemma StripInputIgnoresCapitalsInIgnoreSet(cfg: Config, ignore: string, s: string)
    requires !cfg.keepCase
    requires forall c :: !IsUpper(c) ==> (c in cfg.ignoreChars <==> c in ignore)
    ensures StripInput(cfg, s) == StripInput(cfg.(ignoreChars := ignore), s)
  {
    var cfg' := cfg.(ignoreChars := ignore);
    var r := StripInput(cfg, s);
    var folded := FoldCase(cfg, s);
    assert FoldCase(cfg', s) == folded;
    SubsequenceMultiset(r, folded);
    forall k | 0 <= k < |r|
      ensures !InStripClass(cfg', r[k])
    {
      assert !IsUpper(r[k]);
    }
    forall c | !InStripClass(cfg', c)
      ensures multiset(r)[c] == multiset(folded)[c]
    {
      if IsUpper(c) {
        assert c !in folded;
        assert multiset(r)[c] <= multiset(folded)[c];
      } else {
        assert !InStripClass(cfg, c);
      }
    }
    RemoveClassUnique(cfg', folded, r);
  }
}

=== FILE: outcomes.dfy ===
/** Optional values and error-carrying results, used for the argument checks
    and for the regex reader's rejections. */
module Outcomes {

  datatype Option<+T> = None | Some(value: T)

  datatype Result<+T, +E> = Ok(value: T) | Err(error: E)
}

=== FILE: sorting.dfy ===
/**
  Sorting of character sequences, the step both CheckAnagrams versions take
  before comparing.  The order is the one `SortableRunes.Less` defines (code
  point order, which is also what `std::sort` uses on the C++ strings in the
  ASCII range); the sort itself is an insertion sort, whose result is unique,
  so any other correct sort gives the same sequence.
*/
module Sorting {

  /** `SortableRunes.Less`: rune `x` sorts before rune `y`. */
  predicate Less(x: char, y: char) { x < y }

  /** Ascending by `Less`: no later element sorts before an earlier one,
      the postcondition of Go's `sort.Sort`. */
  predicate Sorted(s: seq<char>) {
    forall i, j :: 0 <= i < j < |s| ==> !Less(s[j], s[i])
  }

  /** `Less` is a strict total order: this is the ordering requirement that
      Go's `sort.Sort` (and `std::sort`) places on its comparison, and what
      makes a sorted arrangement of a multiset unique (`SortedUnique`). */
  lemma LessIsStrictTotalOrder(x: char, y: char, z: char)
    ensures !Less(x, x)
    ensures Less(x, y) ==> !Less(y, x)
    ensures Less(x, y) && Less(y, z) ==> Less(x, z)
    ensures x != y ==> Less(x, y) || Less(y, x)
  {
  }

  /** `m` sorts no later than any element of `s`. */
  predicate LowerBound(m: char, s: seq<char>) {
    forall k :: 0 <= k < |s| ==> !Less(s[k], m)
  }

  lemma SortedCons(h: char, t: seq<char>)
    requires Sorted(t) && LowerBound(h, t)
    ensures Sorted([h] + t)
  {
    var s := [h] + t;
    forall i, j | 0 <= i < j < |s|
      ensures !Less(s[j], s[i])
    {
      assert s[j] == t[j - 1];
      if i > 0 {
        assert s[i] == t[i - 1];
      }
    }
  }

  /** A lower bound of a sequence bounds every sequence with the same
      elements. */
  lemma LowerBoundByMultiset(m: char, t: seq<char>, u: seq<char>)
    requires multiset(t) == multiset(u) && LowerBound(m, u)
    ensures LowerBound(m, t)
  {
    forall k | 0 <= k < |t|
      ensures !Less(t[k], m)
    {
      assert t[k] in multiset(u);
      var i :| 0 <= i < |u| && u[i] == t[k];
    }
  }

  /** Inserts `x` into the sorted sequence `s` before the first element that
      does not sort before it. */
  function Insert(x: char, s: seq<char>): (r: seq<char>)
    requires Sorted(s)
    ensures Sorted(r)
    ensures multiset(r) == multiset(s) + multiset{x}
  {
    if |s| == 0 then [x]
    else if !Less(s[0], x) then
      assert LowerBound(x, s) by {
        forall k | 0 < k < |s|
          ensures !Less(s[k], x)
        {
          assert !Less(s[k], s[0]);
        }
      }
      SortedCons(x, s);
      [x] + s
    else
      var h, t := s[0], s[1..];
      assert s == [h] + t;
      var rest := Insert(x, t);
      assert multiset(t + [x]) == multiset(t) + multiset{x};
      assert LowerBound(h, t + [x]) by {
        forall k | 0 <= k < |t|
          ensures !Less(t[k], h)
        {
          assert t[k] == s[k + 1];
        }
      }
      LowerBoundByMultiset(h, rest, t + [x]);
      SortedCons(h, rest);
      [h] + rest
  }

  /** Insertion sort: a sorted permutation of its input. */
  function Sort(s: seq<char>): (r: seq<char>)
    ensures Sorted(r)
    ensures multiset(r) == multiset(s)
    ensures |r| == |s|
  {
    if |s| == 0 then []
    else
      assert s == [s[0]] + s[1..];
      Insert(s[0], Sort(s[1..]))
  }

  /** The head of a sorted sequence sorts no later than any of its elements. */
  lemma SortedHeadIsLeast(a: seq<char>, c: char)
    requires Sorted(a) && c in multiset(a)
    ensures !Less(c, a[0])
  {
    var i :| 0 <= i < |a| && a[i] == c;
    if i > 0 {
      assert !Less(a[i], a[0]);
    }
  }

  /** Two sorted sequences with the same elements are the same sequence. */
  lemma {:induction false} SortedUnique(a: seq<char>, b: seq<char>)
    requires Sorted(a) && Sorted(b)
    requires multiset(a) == multiset(b)
    ensures a == b
  {
    if |a| == 0 {
      assert |multiset(b)| == 0;
    } else {
      assert |b| == |multiset(b)| == |multiset(a)| == |a|;
      SortedHeadIsLeast(a, b[0]);
      SortedHeadIsLeast(b, a[0]);
      var h := a[0];
      assert b[0] == h;
      assert a == [h] + a[1..];
      assert b == [h] + b[1..];
      assert multiset(a[1..]) == multiset(a) - multiset{h};
      assert multiset(b[1..]) == multiset(b) - multiset{h};
      assert Sorted(a[1..]) by {
        forall i, j | 0 <= i < j < |a| - 1
          ensures !Less(a[1..][j], a[1..][i])
        {
          assert a[1..][j] == a[j + 1] && a[1..][i] == a[i + 1];
        }
      }
      assert Sorted(b[1..]) by {
        forall i, j | 0 <= i < j < |b| - 1
          ensures !Less(b[1..][j], b[1..][i])
        {
          assert b[1..][j] == b[j + 1] && b[1..][i] == b[i + 1];
        }
      }
      SortedUnique(a[1..], b[1..]);
    }
  }

  /** The sorted copy depends only on the multiset of the input. */
  lemma SortDeterminedByMultiset(a: seq<char>, b: seq<char>)
    ensures Sort(a) == Sort(b) <==> multiset(a) == multiset(b)
  {
    if multiset(a) == multiset(b) {
      SortedUnique(Sort(a), Sort(b));
    }
  }
}

=== FILE: stripclass.dfy ===
/**
  The invocation configuration and the strip class: the set of characters
  the normaliser deletes.  `InStripClass` is the reference definition;
  `CreateStripRegex` builds the regex source the C++ program compiles, and the
  lemmas relate the class that source denotes to the reference.
*/
module StripClass {
  import opened Ascii
  import opened Outcomes
  import opened Escape

  /** The options that shape normalisation (the positional strings are
      handled separately).  `ignoreChars` is empty in the Go program. */
  datatype Config = Config(keepCase: bool, keepNonword: bool, ignoreChars: string)

  /** Character `c` is deleted: it is a non-word character and non-word
      characters are not kept, or it is one of the ignored characters. */
  predicate InStripClass(cfg: Config, c: char) {
    (!cfg.keepNonword && !IsWordChar(c)) || c in cfg.ignoreChars
  }

  /** The strip class is empty exactly when non-word characters are kept
      and nothing is ignored. */
  lemma EmptyStripClass(cfg: Config)
    ensures (forall c :: !InStripClass(cfg, c)) <==> cfg.keepNonword && cfg.ignoreChars == ""
  {
    if !cfg.keepNonword {
      assert InStripClass(cfg, ' ');
    } else if cfg.ignoreChars != "" {
      assert InStripClass(cfg, cfg.ignoreChars[0]);
    }
  }

  /** `CreateStripRegex` with the escape set as a parameter: `\W` when
      non-word characters go, then the escaped ignore set, all in brackets
      when anything was added; otherwise the empty pattern. */
  function StripRegexUsing(meta: set<char>, cfg: Config): (src: string)
    ensures src == "" <==> cfg.keepNonword && cfg.ignoreChars == ""
    ensures src != "" ==> src[0] == '[' && src[|src| - 1] == ']'
  {
    var body := (if !cfg.keepNonword then "\\W" else "")
      + (if cfg.ignoreChars != "" then EscapeUsing(meta, cfg.ignoreChars) else "");
    if body != "" then "[" + body + "]" else ""
  }

  /** The regex source as the C++ program builds it. */
  function CreateStripRegex(cfg: Config): (src: string)
    ensures src == "" <==> forall c :: !InStripClass(cfg, c)
  {
    EmptyStripClass(cfg);
    StripRegexUsing(RegexSpecials, cfg)
  }

  /** The regex source with the corrected escape, which also protects '-'. */
  function CreateStripRegexFixed(cfg: Config): (src: string)
    ensures src == "" <==> forall c :: !InStripClass(cfg, c)
  {
    EmptyStripClass(cfg);
    StripRegexUsing(BracketSpecials, cfg)
  }

  /** The items the strip regex should read as: the non-word class when
      non-word characters go, then one literal per ignored character. */
  function StripItems(cfg: Config): seq<Item> {
    (if !cfg.keepNonword then [NonWord] else []) + Lits(cfg.ignoreChars)
  }

  lemma StripItemsMember(cfg: Config, c: char)
    ensures Member(StripItems(cfg), c) <==> InStripClass(cfg, c)
  {
    var ig := cfg.ignoreChars;
    var items := StripItems(cfg);
    LitsMember(ig, c);
    if !cfg.keepNonword {
      if Member(items, c) {
        var k :| 0 <= k < |items| && ItemMatches(items[k], c);
        if k > 0 {
          assert items[k] == Lits(ig)[k - 1];
          assert Member(Lits(ig), c);
        }
      }
      if c in ig {
        var k :| 0 <= k < |Lits(ig)| && ItemMatches(Lits(ig)[k], c);
        assert items[k + 1] == Lits(ig)[k];
      }
      if !IsWordChar(c) {
        assert ItemMatches(items[0], c);
      }
    } else {
      assert items == Lits(ig);
    }
  }

  /** The escaped ignore set cannot start with '^'. */
  lemma EscapedNoCaret(meta: set<char>, ig: string)
    requires BracketSafe(meta) && ig != ""
    ensures EscapeUsing(meta, ig)[0] != '^'
  {
    if ig[0] in meta {
      assert EscapeUsing(meta, ig) == ['\\', ig[0]] + EscapeUsing(meta, ig[1..]);
    } else {
      assert EscapeUsing(meta, ig) == [ig[0]] + EscapeUsing(meta, ig[1..]);
    }
  }

  /** For a bracket-safe escape set that either escapes '-' or meets no '-'
      in the ignore set, the strip regex reads as `StripItems`. */
  lemma CompileStripRegex(meta: set<char>, cfg: Config)
    requires BracketSafe(meta)
    requires '-' in meta || '-' !in cfg.ignoreChars
    ensures CompileClass(StripRegexUsing(meta, cfg)) == Some(StripItems(cfg))
  {
    var src := StripRegexUsing(meta, cfg);
    var ig := cfg.ignoreChars;
    if src == "" {
      assert StripItems(cfg) == [];
    } else {
      var e := EscapeUsing(meta, ig);
      assert EscapeUsing(meta, "") == "";
      var body := (if !cfg.keepNonword then "\\W" else "") + e;
      assert src == "[" + body + "]";
      assert src[1..|src| - 1] == body;
      if !cfg.keepNonword {
        ParseNonWordThenEscaped(meta, ig);
        assert StripItems(cfg) == [NonWord] + Lits(ig);
        assert src[1] == '\\';
      } else {
        ParseEscaped(meta, ig);
        assert body == e;
        EscapedNoCaret(meta, ig);
        assert src[1] == e[0];
        assert StripItems(cfg) == Lits(ig);
      }
    }
  }

  /** For a bracket-safe escape set that either escapes '-' or meets no '-'
      in the ignore set, the compiled class is exactly the strip class. */
  lemma StripRegexDenotesStripClass(meta: set<char>, cfg: Config)
    requires BracketSafe(meta)
    requires '-' in meta || '-' !in cfg.ignoreChars
    ensures CompileClass(StripRegexUsing(meta, cfg)).Some?
    ensures forall c :: Member(CompileClass(StripRegexUsing(meta, cfg)).value, c) <==> InStripClass(cfg, c)
  {
    CompileStripRegex(meta, cfg);
    forall c
      ensures Member(StripItems(cfg), c) <==> InStripClass(cfg, c)
    {
      StripItemsMember(cfg, c);
    }
  }

  /** As written, the C++ strip regex deletes exactly the strip class when
      the ignore set holds no '-'. */
  lemma CreateStripRegexFaithfulWithoutDash(cfg: Config)
    requires '-' !in cfg.ignoreChars
    ensures CompileClass(CreateStripRegex(cfg)).Some?
    ensures forall c :: Member(CompileClass(CreateStripRegex(cfg)).value, c) <==> InStripClass(cfg, c)
  {
    SpecialSetsAreBracketSafe();
    StripRegexDenotesStripClass(RegexSpecials, cfg);
  }

  /** With the corrected escape, the strip regex deletes exactly the strip
      class for every configuration. */
  lemma CreateStripRegexFixedFaithful(cfg: Config)
    ensures CompileClass(CreateStripRegexFixed(cfg)).Some?
    ensures forall c :: Member(CompileClass(CreateStripRegexFixed(cfg)).value, c) <==> InStripClass(cfg, c)
  {
    SpecialSetsAreBracketSafe();
    StripRegexDenotesStripClass(BracketSpecials, cfg);
  }

  lemma DashRegexSource(cfg: Config, ig: string)
    requires cfg == Config(true, true, ig) && (ig == "a-z" || ig == "z-a" || ig == "a-")
    ensures CreateStripRegex(cfg) == "[" + ig + "]"
  {
    assert forall k :: 0 <= k < |ig| ==> ig[k] !in RegexSpecials by {
      forall k | 0 <= k < |ig|
        ensures ig[k] !in RegexSpecials
      {
        assert k in {0, 1, 2};
      }
    }
    EscapeIdentity(RegexSpecials, ig);
    assert StripRegexUsing(RegexSpecials, cfg) == "[" + ("" + ig) + "]";
    assert "" + ig == ig;
  }

  lemma DashRegexReadsAsRange()
    ensures CompileClass("[a-z]") == Some([Range('a', 'z')])
  {
    assert "a-z"[1..] == "-z";
    assert "-z"[1..] == "z";
    assert "z"[1..] == "";
    assert ReadAtom("a-z") == Some((Char('a'), "-z"));
    assert ReadAtom("z") == Some((Char('z'), ""));
    assert ParseBody("") == Some([]);
    assert [Range('a', 'z')] + [] == [Range('a', 'z')];
    assert ParseBody("a-z") == Some([Range('a', 'z')]);
    var src := "[a-z]";
    assert src[1..|src| - 1] == "a-z";
  }

  /** As written, an ignore set "a-z" becomes the range [a-z]: the regex
      deletes 'b', which the user did not ask to ignore. */
  lemma DashIgnoreSetBecomesRange()
    ensures CompileClass(CreateStripRegex(Config(true, true, "a-z"))) == Some([Range('a', 'z')])
    ensures Member([Range('a', 'z')], 'b')
    ensures !InStripClass(Config(true, true, "a-z"), 'b')
  {
    DashRegexSource(Config(true, true, "a-z"), "a-z");
    assert "[" + "a-z" + "]" == "[a-z]";
    DashRegexReadsAsRange();
    assert ItemMatches([Range('a', 'z')][0], 'b');
  }

  lemma ReversedDashRegexIsRejected()
    ensures CompileClass("[z-a]") == None
  {
    assert "z-a"[1..] == "-a";
    assert "-a"[1..] == "a";
    assert ReadAtom("z-a") == Some((Char('z'), "-a"));
    assert ReadAtom("a") == Some((Char('a'), ""));
    assert ParseBody("z-a") == None;
    var src := "[z-a]";
    assert src[1..|src| - 1] == "z-a";
  }

  /** As written, an ignore set "z-a" becomes the reversed range [z-a],
      which the regex compiler refuses, so the program stops before comparing
      anything; the strip class itself is well defined. */
  lemma ReversedDashIgnoreSetIsRejected()
    ensures CompileClass(CreateStripRegex(Config(true, true, "z-a"))) == None
    ensures InStripClass(Config(true, true, "z-a"), 'z')
  {
    DashRegexSource(Config(true, true, "z-a"), "z-a");
    assert "[" + "z-a" + "]" == "[z-a]";
    ReversedDashRegexIsRejected();
    assert "z-a"[0] == 'z';
  }

  lemma TrailingDashReadsAsLiteral()
    ensures CompileClass("[a-]") == Some([Lit('a'), Lit('-')])
  {
    assert "a-"[1..] == "-";
    assert "-"[1..] == "";
    assert ReadAtom("a-") == Some((Char('a'), "-"));
    assert ReadAtom("-") == Some((Char('-'), ""));
    assert ParseBody("") == Some([]);
    assert [Lit('-')] + [] == [Lit('-')];
    assert ParseBody("-") == Some([Lit('-')]);
    assert [Lit('a')] + [Lit('-')] == [Lit('a'), Lit('-')];
    assert ParseBody("a-") == Some([Lit('a'), Lit('-')]);
    var src := "[a-]";
    assert src[1..|src| - 1] == "a-";
  }

  /** A '-' at the end of the ignore set closes the bracket body and stays a
      literal, so, as written, the regex deletes exactly the strip class. */
  lemma TrailingDashIgnoreSetIsLiteral()
    ensures CompileClass(CreateStripRegex(Config(true, true, "a-"))) == Some([Lit('a'), Lit('-')])
    ensures forall c :: Member([Lit('a'), Lit('-')], c) <==> InStripClass(Config(true, true, "a-"), c)
  {
    DashRegexSource(Config(true, true, "a-"), "a-");
    assert "[" + "a-" + "]" == "[a-]";
    TrailingDashReadsAsLiteral();
    forall c
      ensures Member([Lit('a'), Lit('-')], c) <==> InStripClass(Config(true, true, "a-"), c)
    {
      LitsMember("a-", c);
      assert Lits("a-") == [Lit('a'), Lit('-')];
    }
  }
}
